=== FILE: README.md ===
# Socket echo harness — Dafny model

A model of the sequential core of Netty's `SocketEchoTest`. This test cuts a
1,048,576-byte payload into randomly sized slices and writes them from a
client channel to a server. An `EchoHandler` on each end of the connection
checks every received byte against the payload. On the accepted (server)
side the handler echoes each chunk back. The control thread then:

- waits for both handlers to finish or to fail;
- closes the three channels in a fixed order;
- throws the first failure it finds, using a fixed precedence.

The Netty transport is not modelled: it is an input. The model fixes:

- the random draws, as a sequence;
- the chunking in which each handler receives its byte stream;
- the exceptions the transport reports to each handler;
- which close futures fail.

Once these are fixed, everything is a pure function.

Modules:

- `Common` (common.dfy): Java's signed `Byte`, `Option` for nullable
  references, and `Flatten`, which turns a sequence of chunks into one
  byte stream.
- `Payload` (payload.dfy): the payload length `DataLength` (1,048,576),
  the draw type `Draw` in `[0, 65535]` (`nextInt(1024 * 64)`), and `Sum`.
- `Slicer` (slicer.dfy): the write loop of `testSimpleEcho0`, as a
  reference function `Slices` and as the loop itself, `SendLoop`.
- `EchoHandler` (echo_handler.dfy): each handler callback
  (`channelActive`, `messageReceived`, `exceptionCaught`) is a pure step on
  an immutable `Handler`. The `Handler` holds:
  - `channel`: the bound role, or none before activation;
  - `counter`;
  - `exception`: the first-failure slot.

  `Run` folds a handler over a sequence of transport events.
- `Harness` (harness.dfy): the two wait loops, the teardown sequence and
  the verdict.
- `Scenario` (scenario.dfy): one whole run, with the end-to-end lemmas.

The accepted side is where `channel.parent() != null`. It is modelled as
the role tag `Accepting`. The dialling side is `Originating`.

## Model

| member | source | states |
|---|---|---|
| Slicer.Slices | testsuite/src/test/java/io/netty/testsuite/transport/socket/SocketEchoTest.java:131-140 | The loop variable ends between its start and the payload length. One draw is taken per slice. The loop stops short of the payload length only when the draws run out |
| Slicer.SlicesClamped | testsuite/src/test/java/io/netty/testsuite/transport/socket/SocketEchoTest.java:131-132 | Slice k has length `Math.min(draw k, bytes remaining at its start)` (written with `Common.Min`) and starts before the payload's end, so a slice is drawn only while bytes remain |
| Slicer.SlicesContiguous | testsuite/src/test/java/io/netty/testsuite/transport/socket/SocketEchoTest.java:131-140 | The slices lie end to end: the first starts where the loop started, each next one starts where the previous one ended, and the last ends at the final `i` |
| Slicer.SliceBounds | testsuite/src/test/java/io/netty/testsuite/transport/socket/SocketEchoTest.java:132-133 | Every slice is at most 65535 bytes long and none runs past the payload's end |
| Slicer.ChunksCover | testsuite/src/test/java/io/netty/testsuite/transport/socket/SocketEchoTest.java:133 | The buffers wrapped for contiguous slices from `a` to `b` carry exactly `data[a..b)`, in order |
| Slicer.SentCoversPayload | testsuite/src/test/java/io/netty/testsuite/transport/socket/SocketEchoTest.java:131-140 | The bytes written are the payload prefix up to `i`. Once the loop has exited they are the whole payload: no gap, no overlap |
| Slicer.EnoughDrawsExit | testsuite/src/test/java/io/netty/testsuite/transport/socket/SocketEchoTest.java:131-132 | Draws whose total reaches the remaining length make the loop exit |
| Slicer.ZeroDrawsStall | testsuite/src/test/java/io/netty/testsuite/transport/socket/SocketEchoTest.java:131-132 | Draws of 0 give empty slices and no progress: on any finite run of them the loop consumes every draw and never exits |
| Slicer.SendLoop | testsuite/src/test/java/io/netty/testsuite/transport/socket/SocketEchoTest.java:131-140 | The imperative loop writes exactly the reference slicing. The bytes written are `data[..i]`. Bytes remain only when the draws ran out |
| EchoHandler.ChannelActive | testsuite/src/test/java/io/netty/testsuite/transport/socket/SocketEchoTest.java:195-199 | Activation binds the handler to its channel's role and leaves its counter and slot unchanged |
| EchoHandler.ActiveFirst | testsuite/src/test/java/io/netty/testsuite/transport/socket/SocketEchoTest.java:195-199 | An activation in front of other events writes, raises and closes nothing: the rest runs from the bound state |
| EchoHandler.FirstBad | testsuite/src/test/java/io/netty/testsuite/transport/socket/SocketEchoTest.java:206-209 | The comparison loop stops at the first index whose payload byte is out of range or differs. Every earlier index matched |
| EchoHandler.AllAgreeIffContinues | testsuite/src/test/java/io/netty/testsuite/transport/socket/SocketEchoTest.java:206-209 | Every byte passes the check if and only if the chunk is the payload slice at the counter |
| EchoHandler.MessageReceived | testsuite/src/test/java/io/netty/testsuite/transport/socket/SocketEchoTest.java:201-216 | Nothing is thrown if and only if the handler is bound and the chunk continues the payload at `counter`. Then `counter` grows by exactly the chunk length. A mismatch names the first differing offset with both bytes, and all bytes before it matched. An overrun is reported at the payload length. `FailureAt` picks the exception: the `AssertionError` of `assertEquals` when the payload has a byte at the offset, or the `ArrayIndexOutOfBoundsException` that reading the payload at line 208 raises past its end. On any exception the state is unchanged and nothing is written. Only the accepted side writes, and what it writes is the chunk itself |
| EchoHandler.ExceptionCaught | testsuite/src/test/java/io/netty/testsuite/transport/socket/SocketEchoTest.java:223-230 | Compare-and-set from null: the slot takes the cause only when empty, and the channel is closed exactly when the slot was empty |
| EchoHandler.Dispatch | testsuite/src/test/java/io/netty/testsuite/transport/socket/SocketEchoTest.java:195-230 | A step closes the channel if and only if it raised with an empty slot. The slot keeps its old value or takes the raised cause. The counter never decreases and never passes the payload length |
| EchoHandler.Run | testsuite/src/test/java/io/netty/testsuite/transport/socket/SocketEchoTest.java:190-230 | Over any sequence of events, the slot ends holding the first cause ever raised, or its earlier value. The channel is closed exactly once if anything was raised into an empty slot, otherwise never. The counter stays within the payload |
| EchoHandler.RunAppend | testsuite/src/test/java/io/netty/testsuite/transport/socket/SocketEchoTest.java:190-230 | Feeding two event sequences one after the other is feeding the second from the state the first left. Writes, raised exceptions and closes concatenate or add up in order |
| EchoHandler.ReadsKeepChannel | testsuite/src/test/java/io/netty/testsuite/transport/socket/SocketEchoTest.java:195-216 | Only activation binds the channel field: after any sequence of reads, a handler's channel is the one it started with |
| EchoHandler.FirstFailureWins | testsuite/src/test/java/io/netty/testsuite/transport/socket/SocketEchoTest.java:223-230 | A burst of exceptions leaves the first one in an empty slot, and an already-full slot stays as it was. The handler closes once if the burst hits an empty slot, otherwise never. Every cause in the burst is raised, and neither the counter, the channel nor the writes change. An empty burst changes nothing |
| EchoHandler.StreamChecked | testsuite/src/test/java/io/netty/testsuite/transport/socket/SocketEchoTest.java:201-209 | Over a whole stream, a bound handler raises nothing if and only if the joined chunks continue the payload from its counter. Otherwise the first exception is a mismatch or an overrun. For a counter within the payload, that exception marks where the joined stream first departs from the payload: a mismatch at the first differing offset with every earlier byte equal, or an overrun at the payload length with all of the rest matched |
| EchoHandler.StreamDeparts | testsuite/src/test/java/io/netty/testsuite/transport/socket/SocketEchoTest.java:205-209 | The first exception a bound handler raises over a stream, from a counter within the payload, marks where the joined chunks first depart from the payload, across chunk boundaries |
| EchoHandler.StreamVerified | testsuite/src/test/java/io/netty/testsuite/transport/socket/SocketEchoTest.java:201-216 | A stream that continues the payload advances the counter by its length and leaves the slot empty with no close. The accepted side echoes every chunk verbatim and in order; the originating side writes nothing |
| Harness.Wait | testsuite/src/test/java/io/netty/testsuite/transport/socket/SocketEchoTest.java:142-170 | A wait loop exits at the first observed state where its handler's counter reached the payload length or either slot is set. It exits at no earlier state |
| Harness.Await | testsuite/src/test/java/io/netty/testsuite/transport/socket/SocketEchoTest.java:142-170 | The client is waited for before the server, and the server loop starts where the client loop stopped. If states are monotone and teardown is reached, both handlers are done or a failure was recorded |
| Harness.Teardown | testsuite/src/test/java/io/netty/testsuite/transport/socket/SocketEchoTest.java:172-174 | Closes are issued in the order server child, client, listener, always as a prefix of that order. The server child's close is issued if and only if the server handler is bound; the client's close only if the client handler is bound as well, and always when both are bound and the first close succeeded; the listener's whenever the client's close succeeded. Teardown completes if and only if both handlers are bound and no close fails. Otherwise it ends with the cause of the last close issued, if that close failed, or with a NullPointerException at the first unbound handler, before that handler's close |
| Harness.Verdict | testsuite/src/test/java/io/netty/testsuite/transport/socket/SocketEchoTest.java:176-187 | The run throws if and only if a slot is set, and it throws a slot's content. `IsIOException` models `instanceof IOException`. A server slot holding anything but an IOException is thrown. Otherwise a client slot holding anything but an IOException is thrown. Otherwise a set server slot is thrown, so it wins whenever the client slot is empty or holds an IOException. An IOException is thrown only if neither slot holds anything else |
| Harness.VerdictLeastRank | testsuite/src/test/java/io/netty/testsuite/transport/socket/SocketEchoTest.java:176-187 | The thrown exception is the captured one of least rank, where an IOException ranks after every other exception and the client ranks after the server |
| Scenario.Scenario | testsuite/src/test/java/io/netty/testsuite/transport/socket/SocketEchoTest.java:131-187 | The control thread stays in the write loop (`Writing`) if and only if the draws run out before the loop covers the payload. A passing run has written exactly the payload, has both counters equal to the payload length, has both slots empty, and had no failing close. A stalled run has a counter short of the payload length and no failure recorded. An exception is thrown only after both wait loops' exit conditions hold. When no close fails, the exception thrown is the verdict over the two slots. Otherwise it is the cause of the first failing close in the order server child, client, listener, which wins over the verdict |
| Scenario.Side | testsuite/src/test/java/io/netty/testsuite/transport/socket/SocketEchoTest.java:195-199 | Each handler ends bound to the role it was activated with, whatever it reads and whatever the transport reports to it |
| Scenario.Lifecycle | testsuite/src/test/java/io/netty/testsuite/transport/socket/SocketEchoTest.java:190-230 | A handler's life is its activation, then its reads from the bound state, then the transport's exceptions from wherever the reads left it |
| Scenario.CleanSide | testsuite/src/test/java/io/netty/testsuite/transport/socket/SocketEchoTest.java:201-230 | A handler whose reads continue the payload from 0 ends with its counter at the stream's length. The accepted side echoes every chunk and the originating side writes nothing. Its slot holds the first exception the transport reported to it, if any, and it closes once exactly when there was one |
| Scenario.RoundTrip | testsuite/src/test/java/io/netty/testsuite/transport/socket/SocketEchoTest.java:131-230 | After the write loop exits, suppose the server receives the written bytes in order and the client receives the server's echoes in order, each in any chunking. Then both counters equal the payload length. The server's writes are its reads, and the client writes nothing. Each slot holds the first exception the transport reported to that handler, and no other exception is raised. The run passes if and only if the transport reported no exception and no close fails |
| Scenario.TransportErrorFails | testsuite/src/test/java/io/netty/testsuite/transport/socket/SocketEchoTest.java:176-187 | On an otherwise faithful round trip with succeeding closes, a reported transport exception fails the run. Only the first exception reported to each handler reaches its slot. The server's first exception is thrown unless it is an IOException and the client's first is not. An IOException is thrown only when the other side's first reported exception is an IOException too, or there is none |
| Scenario.ExactRoundTrip | testsuite/src/test/java/io/netty/testsuite/transport/socket/SocketEchoTest.java:131-215 | RoundTrip for a transport that keeps write boundaries and reports no exception: the server reads exactly the slices written and the client reads exactly the echoes. Both counters reach the payload length, both slots stay empty, and the run passes when no close fails |
| Scenario.FullPayloadPasses | testsuite/src/test/java/io/netty/testsuite/transport/socket/SocketEchoTest.java:43-187 | With a 1,048,576-byte payload, draws that add up to at least its length, a faithful transport that reports no exception and no failing close, the run passes with both counters at 1,048,576 |
| Scenario.CorruptionDetected | testsuite/src/test/java/io/netty/testsuite/transport/socket/SocketEchoTest.java:176-230 | If the server receives bytes that are not a prefix of the payload, its slot holds the first mismatch or overrun, whatever the transport reports afterwards. A mismatch names the offset where the received stream first differs from the payload, with both bytes, and every byte before it matched. An overrun is at the payload length, with the whole payload matched first. Its channel is closed exactly once. When no close fails, the run throws that exception once the write loop has exited, and is still `Writing` otherwise |
| Scenario.ShortStreamStalls | testsuite/src/test/java/io/netty/testsuite/transport/socket/SocketEchoTest.java:142-155 | If the server receives only a proper prefix of the payload, the client only its echoes, and the transport reports no exception, no failure is recorded. The exit condition of the first wait loop, on the client's counter, is false in the final state. The run is `Stalled` once the write loop has exited, and `Writing` otherwise |

## Behaviour of the code worth noting

- `nextInt(1024 * 64)` returns a value in `[0, 65535]`. A zero draw writes an empty buffer and makes no progress (`Slicer.ZeroDrawsStall`).
- An IOException in either slot fails the run when no other exception was captured (`Harness.Verdict`).
- `sync()` rethrows a failed close. The later closes and the verdict then do not run. A handler whose channel was never bound throws a NullPointerException at its close (`Harness.Teardown`).
- The harness has no timeout of its own. A wait loop that never exits is reported as `Stalled` (`Scenario.ShortStreamStalls`). Only JUnit's timeout ends such a run, and two of the four test cases have that timeout commented out (lines 70 and 79).

## Left out

- Bootstrap, pipeline and `ChannelInitializer` setup, the event loop group, and the additional-executor dispatch mode (lines 51-59 and 104-126). They are calls into Netty, whose code is not part of this model.
- The `voidPromise` identity assertions (lines 134-137). They depend on what Netty's `writeAndFlush` returns, which is not part of this model.
- `Thread.sleep` polling, `volatile` and `AtomicReference` visibility, and cross-thread timing. Counters and slots are plain sequential state, and the compare-and-set is a pure step.
- `java.util.Random` and the static payload fill (lines 42 and 48). The payload is an arbitrary byte sequence, and the draws are an arbitrary sequence of values in `[0, 65535]`.
- JUnit annotations and timeouts, `printStackTrace`, and the `ctx.flush()` batching in `channelReadComplete` (lines 219-221). The writes a handler issues are listed in order; when they are flushed is not modelled.
- Delivery by the transport is an input: the chunks each handler reads and the exceptions the pipeline reports to each handler. An exception thrown by `messageReceived` is assumed to reach `exceptionCaught`, as Netty's pipeline does. Events after a handler closes its channel are still delivered if the input lists them.
- Scenario: the transport's exceptions reach each handler after all of its reads, not interleaved with them. `EchoHandler.Run` and `EchoHandler.FirstFailureWins` state the handler over arbitrary interleavings; end to end only this order is modelled.
- Scenario: the wait loops are evaluated only on the handlers' final states, not at intermediate polls, so a run that would exit a loop early on a transient state is not distinguished. Exceptions that teardown itself might trigger in the handlers are not fed back into the slots before the verdict. `Harness.Await` states the loops over arbitrary poll sequences.
- Java `int` arithmetic in `counter += actual.length` and `i + lastIdx` is taken as unbounded. `EchoHandler.Run` proves the counter never exceeds the payload length (2^20), so `counter` cannot overflow. `i + lastIdx` stays below 2^20 plus the chunk length.

=== FILE: common.dfy ===
/** Small vocabulary shared by the rest of the model: Java's signed byte, an
    optional value standing for a nullable reference, and byte streams made of
    chunks. */
module Common {

  /** A Java `byte`: a signed 8-bit value. */
  newtype Byte = b: int | -128 <= b < 128

  /** A nullable reference: `None` is Java's `null`. */
  datatype Option<+T> = None | Some(value: T)

  /** `Math.min` on two ints. */
  function Min(a: int, b: int): (r: int)
    ensures r <= a && r <= b
    ensures r == a || r == b
  {
    if a <= b then a else b
  }

  /** The byte stream a sequence of chunks makes up, in order. */
  function Flatten<T>(chunks: seq<seq<T>>): (r: seq<T>)
  {
    if |chunks| == 0 then [] else chunks[0] + Flatten(chunks[1..])
  }

  /** Flattening distributes over appending chunk sequences. */
  lemma {:induction false} FlattenAppend<T>(a: seq<seq<T>>, b: seq<seq<T>>)
    ensures Flatten(a + b) == Flatten(a) + Flatten(b)
  {
    if |a| == 0 {
      assert a + b == b;
    } else {
      assert (a + b)[1..] == a[1..] + b;
      FlattenAppend(a[1..], b);
    }
  }

  /** The stream of one more chunk is the old stream followed by that chunk. */
  lemma FlattenSnoc<T>(a: seq<seq<T>>, c: seq<T>)
    ensures Flatten(a + [c]) == Flatten(a) + c
  {
    FlattenAppend(a, [c]);
    assert Flatten([c]) == c + Flatten([c][1..]);
    assert [c][1..] == [];
  }
}

=== FILE: echo_handler.dfy ===
/** The test's `EchoHandler` (SocketEchoTest.java:190-231): one per connection
    end. Its state is the number of payload bytes verified so far, a
    first-failure slot, and the channel it was bound to on activation; each
    callback is a pure step from one state to the next. */
module EchoHandler {
  import opened Common

  /** The end of the connection a handler is bound to. An accepted child
      channel has the listening channel as `parent()`, the dialling one has
      none; the handler echoes only on the accepted side. */
  datatype Role = Originating | Accepting

  /** What a failure slot can hold: the `Throwable`s the handler raises
      itself, and anything the transport reports. */
  datatype Cause =
    | Mismatch(offset: nat, expected: Byte, actual: Byte)  // AssertionError from assertEquals
    | OutOfBounds(offset: nat)                              // ArrayIndexOutOfBoundsException on data
    | NullChannel                                           // NullPointerException: channel never bound
    | Transport(id: nat, io: bool)                          // reported by the transport; io: is an IOException

  /** `instanceof IOException`. Failures the handler raises itself never are. */
  predicate IsIOException(c: Cause)
  {
    c.Transport? && c.io
  }

  /** `channel` (None until channelActive), `counter`, and the `exception` slot. */
  datatype Handler = Handler(channel: Option<Role>, counter: nat, exception: Option<Cause>)

  /** A handler as constructed: unbound, nothing verified, no failure. */
  const Fresh: Handler := Handler(None, 0, None)

  /** `channelActive`: binds the handler to its channel. */
  function ChannelActive(h: Handler, role: Role): (r: Handler)
    ensures r.channel == Some(role)
    ensures r.counter == h.counter && r.exception == h.exception
  {
    h.(channel := Some(role))
  }

  /** Byte `j` of a chunk checked at stream offset `base` is in range and equal
      to the payload byte there. */
  predicate Agrees(data: seq<Byte>, base: nat, chunk: seq<Byte>, j: nat)
    requires j < |chunk|
  {
    base + j < |data| && data[base + j] == chunk[j]
  }

  /** The chunk is the continuation of the payload at offset `base`. An
      empty chunk continues it anywhere: the comparison loop does not run. */
  predicate Continues(data: seq<Byte>, base: nat, chunk: seq<Byte>)
  {
    |chunk| == 0 || (base + |chunk| <= |data| && data[base .. base + |chunk|] == chunk)
  }

  /** The comparison loop of `messageReceived` from index `from` on: the first
      index whose check fails, or `|chunk|` when none does. */
  function FirstBad(data: seq<Byte>, base: nat, chunk: seq<Byte>, from: nat): (k: nat)
    requires from <= |chunk|
    ensures from <= k <= |chunk|
    ensures forall j :: from <= j < k ==> Agrees(data, base, chunk, j)
    ensures k < |chunk| ==> !Agrees(data, base, chunk, k)
    decreases |chunk| - from
  {
    if from == |chunk| || !Agrees(data, base, chunk, from) then from
    else FirstBad(data, base, chunk, from + 1)
  }

  /** Bytes that all pass the check form a slice of the payload. */
  lemma {:induction false} AgreeingPrefix(data: seq<Byte>, base: nat, chunk: seq<Byte>, k: nat)
    requires k <= |chunk|
    requires forall j :: 0 <= j < k ==> Agrees(data, base, chunk, j)
    ensures k > 0 ==> base + k <= |data|
    ensures base + k <= |data| ==> data[base .. base + k] == chunk[.. k]
  {
    if k > 0 {
      assert Agrees(data, base, chunk, k - 1);
    }
    if base + k <= |data| {
      forall j | 0 <= j < k
        ensures data[base .. base + k][j] == chunk[.. k][j]
      {
        assert Agrees(data, base, chunk, j);
      }
    }
  }

  /** Every byte passes the check exactly when the chunk continues the payload. */
  lemma AllAgreeIffContinues(data: seq<Byte>, base: nat, chunk: seq<Byte>)
    ensures (forall j :: 0 <= j < |chunk| ==> Agrees(data, base, chunk, j)) <==> Continues(data, base, chunk)
  {
    if forall j :: 0 <= j < |chunk| ==> Agrees(data, base, chunk, j) {
      AgreeingPrefix(data, base, chunk, |chunk|);
    }
    if Continues(data, base, chunk) {
      forall j | 0 <= j < |chunk|
        ensures Agrees(data, base, chunk, j)
      {
        assert data[base .. base + |chunk|][j] == chunk[j];
      }
    }
  }

  /** The exception the comparison loop throws at a failing index: reading
      `data` past its end throws before anything is compared. */
  function FailureAt(data: seq<Byte>, base: nat, chunk: seq<Byte>, j: nat): (r: Cause)
    requires j < |chunk|
  {
    if base + j < |data| then Mismatch(base + j, data[base + j], chunk[j])
    else OutOfBounds(base + j)
  }

  /** Result of `messageReceived`: the new state, what it wrote to its
      channel, and the exception it threw, if any. */
  datatype Received = Received(state: Handler, writes: seq<seq<Byte>>, failure: Option<Cause>)

  /** `messageReceived`: checks each byte of the chunk against the payload
      at `counter`, echoes the chunk on the accepted side, then advances
      `counter`. A thrown exception leaves the state as it was. */
  function MessageReceived(h: Handler, data: seq<Byte>, chunk: seq<Byte>): (r: Received)
    ensures r.failure.None? <==> h.channel.Some? && Continues(data, h.counter, chunk)
    ensures r.failure.None? ==> r.state == h.(counter := h.counter + |chunk|)
    ensures r.failure.Some? ==> r.state == h && r.writes == []
    ensures r.failure.Some? ==> !r.failure.value.Transport?
    ensures r.failure == Some(NullChannel) <==> h.channel.None? && Continues(data, h.counter, chunk)
    ensures r.writes == (if r.failure.None? && h.channel == Some(Accepting) then [chunk] else [])
    ensures r.failure.Some? && r.failure.value.Mismatch? ==>
              var o := r.failure.value.offset;
              && h.counter <= o < |data| && o - h.counter < |chunk|
              && r.failure.value.expected == data[o]
              && r.failure.value.actual == chunk[o - h.counter]
              && data[o] != chunk[o - h.counter]
              && data[h.counter .. o] == chunk[.. o - h.counter]
    ensures h.counter <= |data| && r.failure.Some? && r.failure.value.OutOfBounds? ==>
              && r.failure.value.offset == |data|
              && |data| - h.counter < |chunk|
              && data[h.counter ..] == chunk[.. |data| - h.counter]
  {
    var k := FirstBad(data, h.counter, chunk, 0);
    AllAgreeIffContinues(data, h.counter, chunk);
    if k < |chunk| then
      AgreeingPrefix(data, h.counter, chunk, k);
      Received(h, [], Some(FailureAt(data, h.counter, chunk, k)))
    else
      match h.channel
      case None => Received(h, [], Some(NullChannel))
      case Some(role) =>
        Received(h.(counter := h.counter + |chunk|), if role == Accepting then [chunk] else [], None)
  }

  /** Result of `exceptionCaught`: the new state and whether it closed the channel. */
  datatype Caught = Caught(state: Handler, close: bool)

  /** `exceptionCaught`: compare-and-set of the failure slot from null; only
      the call that wins closes the channel. */
  function ExceptionCaught(h: Handler, cause: Cause): (r: Caught)
    ensures r.close <==> h.exception.None?
    ensures r.state.exception == (if h.exception.None? then Some(cause) else h.exception)
    ensures r.state.counter == h.counter && r.state.channel == h.channel
  {
    if h.exception.None? then Caught(h.(exception := Some(cause)), true)
    else Caught(h, false)
  }

  /** What the transport does to a handler: activate it, deliver a chunk, or
      report an exception. */
  datatype Event = Active(role: Role) | Read(chunk: seq<Byte>) | Error(cause: Cause)

  /** Chunks delivered one after another. */
  function Reads(chunks: seq<seq<Byte>>): (r: seq<Event>)
    ensures |r| == |chunks|
    ensures forall k :: 0 <= k < |chunks| ==> r[k] == Read(chunks[k])
  {
    seq(|chunks|, k requires 0 <= k < |chunks| => Read(chunks[k]))
  }

  /** Exceptions reported one after another. */
  function Errors(causes: seq<Cause>): (r: seq<Event>)
    ensures |r| == |causes|
    ensures forall k :: 0 <= k < |causes| ==> r[k] == Error(causes[k])
  {
    seq(|causes|, k requires 0 <= k < |causes| => Error(causes[k]))
  }

  /** Effect of one event: the new state, the writes issued, the exception
      passed to `exceptionCaught` (if any), and whether the channel was closed. */
  datatype Step = Step(state: Handler, writes: seq<seq<Byte>>, raised: Option<Cause>, close: bool)

  /** One callback. An exception thrown by `messageReceived` reaches
      `exceptionCaught`, as the channel pipeline routes it. */
  function Dispatch(h: Handler, data: seq<Byte>, e: Event): (r: Step)
    ensures r.close <==> h.exception.None? && r.raised.Some?
    ensures r.state.exception == (if h.exception.None? then r.raised else h.exception)
    ensures r.state.channel == (if e.Active? then Some(e.role) else h.channel)
    ensures h.counter <= r.state.counter
    ensures h.counter <= |data| ==> r.state.counter <= |data|
  {
    match e
    case Active(role) => Step(ChannelActive(h, role), [], None, false)
    case Read(chunk) =>
      var m := MessageReceived(h, data, chunk);
      if m.failure.None? then Step(m.state, m.writes, None, false)
      else
        var c := ExceptionCaught(m.state, m.failure.value);
        Step(c.state, [], m.failure, c.close)
    case Error(cause) =>
      var c := ExceptionCaught(h, cause);
      Step(c.state, [], Some(cause), c.close)
  }

  /** A handler's whole life: its final state, every write it issued in
      order, every exception passed to `exceptionCaught`, and how many times
      it closed its channel. */
  datatype Trace = Trace(state: Handler, writes: seq<seq<Byte>>, raised: seq<Cause>, closes: nat)

  /** The handler fed a sequence of events. The slot ends up holding the
      first exception ever caught, and the channel is closed once, by the
      call that filled the slot. */
  function Run(h: Handler, data: seq<Byte>, events: seq<Event>): (r: Trace)
    ensures r.closes == (if h.exception.None? && |r.raised| > 0 then 1 else 0)
    ensures r.state.exception ==
              (if h.exception.Some? then h.exception
               else if |r.raised| == 0 then None
               else Some(r.raised[0]))
    ensures h.counter <= r.state.counter
    ensures h.counter <= |data| ==> r.state.counter <= |data|
    ensures h.channel.Some? ==> r.state.channel.Some?
    decreases |events|
  {
    if |events| == 0 then Trace(h, [], [], 0)
    else
      var s := Dispatch(h, data, events[0]);
      var rest := Run(s.state, data, events[1..]);
      var raised := if s.raised.Some? then [s.raised.value] else [];
      Trace(rest.state, s.writes + rest.writes, raised + rest.raised, (if s.close then 1 else 0) + rest.closes)
  }

  /** Compare-and-set from null: a burst of exceptions leaves the first one
      in an empty slot, closes the channel exactly once, and changes
      nothing once the slot is full. An empty burst changes nothing. */
  lemma {:induction false} FirstFailureWins(h: Handler, data: seq<Byte>, causes: seq<Cause>)
    ensures Run(h, data, Errors(causes)).raised == causes
    ensures Run(h, data, Errors(causes)).state ==
              h.(exception := if h.exception.Some? || |causes| == 0 then h.exception else Some(causes[0]))
    ensures Run(h, data, Errors(causes)).closes == (if h.exception.None? && |causes| > 0 then 1 else 0)
    ensures Run(h, data, Errors(causes)).writes == []
    decreases |causes|
  {
    var events := Errors(causes);
    if |causes| == 0 {
      assert events == [];
    } else {
      var s := Dispatch(h, data, events[0]);
      assert events[1..] == Errors(causes[1..]);
      FirstFailureWins(s.state, data, causes[1..]);
    }
  }

  /** The first event of a non-empty sequence, then the rest. */
  lemma RunHead(h: Handler, data: seq<Byte>, events: seq<Event>)
    requires |events| > 0
    ensures var s := Dispatch(h, data, events[0]);
      var rest := Run(s.state, data, events[1..]);
      Run(h, data, events) ==
        Trace(rest.state, s.writes + rest.writes,
              (if s.raised.Some? then [s.raised.value] else []) + rest.raised,
              (if s.close then 1 else 0) + rest.closes)
  {
  }

  /** An activation followed by other events: the rest runs from the bound
      state, and the activation itself writes, raises and closes nothing. */
  lemma ActiveFirst(h: Handler, data: seq<Byte>, role: Role, events: seq<Event>)
    ensures Run(h, data, [Active(role)] + events) == Run(ChannelActive(h, role), data, events)
  {
  }

  /** A step that writes, raises and closes nothing adds nothing to the
      trace that follows it. */
  lemma TraceAfterQuietStep(s: Step, whole: Trace, rest: Trace)
    requires s.writes == [] && s.raised.None? && !s.close
    requires whole == Trace(rest.state, s.writes + rest.writes,
                            (if s.raised.Some? then [s.raised.value] else []) + rest.raised,
                            (if s.close then 1 else 0) + rest.closes)
    ensures whole == rest
  {
  }

  /** The bookkeeping step of RunAppend: a first step in front of a
      composed run composes with the run it starts. */
  lemma TraceShift(s: Step, x': Trace, y: Trace, xy: Trace, x: Trace, z: Trace)
    requires xy == Trace(y.state, x'.writes + y.writes, x'.raised + y.raised, x'.closes + y.closes)
    requires var head := if s.raised.Some? then [s.raised.value] else [];
      var c := if s.close then 1 else 0;
      && x == Trace(x'.state, s.writes + x'.writes, head + x'.raised, c + x'.closes)
      && z == Trace(xy.state, s.writes + xy.writes, head + xy.raised, c + xy.closes)
    ensures z == Trace(y.state, x.writes + y.writes, x.raised + y.raised, x.closes + y.closes)
  {
  }

  /** Feeding two event sequences one after the other: the second starts
      from the state the first left, and writes, raised exceptions and
      closes add up in order. */
  lemma {:induction false} RunAppend(h: Handler, data: seq<Byte>, a: seq<Event>, b: seq<Event>)
    ensures var x := Run(h, data, a);
      var y := Run(x.state, data, b);
      Run(h, data, a + b) == Trace(y.state, x.writes + y.writes, x.raised + y.raised, x.closes + y.closes)
    decreases |a|
  {
    if |a| == 0 {
      assert a + b == b;
    } else {
      var s := Dispatch(h, data, a[0]);
      var head := if s.raised.Some? then [s.raised.value] else [];
      var c := if s.close then 1 else 0;
      var x' := Run(s.state, data, a[1..]);
      var y := Run(x'.state, data, b);
      var xy := Run(s.state, data, a[1..] + b);
      assert Run(h, data, a) == Trace(x'.state, s.writes + x'.writes, head + x'.raised, c + x'.closes) by {
        RunHead(h, data, a);
      }
      assert Run(h, data, a + b) == Trace(xy.state, s.writes + xy.writes, head + xy.raised, c + xy.closes) by {
        assert (a + b)[0] == a[0];
        assert (a + b)[1..] == a[1..] + b;
        RunHead(h, data, a + b);
      }
      assert xy == Trace(y.state, x'.writes + y.writes, x'.raised + y.raised, x'.closes + y.closes) by {
        RunAppend(s.state, data, a[1..], b);
      }
      TraceShift(s, x', y, xy, Run(h, data, a), Run(h, data, a + b));
      assert head + (x'.raised + y.raised) == (head + x'.raised) + y.raised;
    }
  }

  /** Continuing the payload over two pieces is continuing it over the first
      and then over the second from where the first ended. */
  lemma ContinuesAppend(data: seq<Byte>, base: nat, a: seq<Byte>, b: seq<Byte>)
    ensures Continues(data, base, a + b) <==> Continues(data, base, a) && Continues(data, base + |a|, b)
  {
    if |a| > 0 && |b| > 0 {
      if Continues(data, base, a + b) {
        assert data[base .. base + |a|] == (a + b)[.. |a|];
        assert data[base + |a| .. base + |a| + |b|] == (a + b)[|a| ..];
      }
      if Continues(data, base, a) && Continues(data, base + |a|, b) {
        assert data[base .. base + |a| + |b|] == data[base .. base + |a|] + data[base + |a| .. base + |a| + |b|];
      }
    } else if |a| == 0 {
      assert a + b == b;
    } else {
      assert a + b == a;
    }
  }

  /** A stream continues the payload exactly when its first chunk does and
      the rest continues it from where that chunk ended. */
  lemma ContinuesHead(data: seq<Byte>, base: nat, chunks: seq<seq<Byte>>)
    requires |chunks| > 0
    ensures Continues(data, base, Flatten(chunks)) <==>
              Continues(data, base, chunks[0]) && Continues(data, base + |chunks[0]|, Flatten(chunks[1..]))
  {
    assert Flatten(chunks) == chunks[0] + Flatten(chunks[1..]);
    ContinuesAppend(data, base, chunks[0], Flatten(chunks[1..]));
  }

  /** Where a stream placed at payload offset `base` first departs from the
      payload, as the exception that reports it: a mismatch at the first
      differing offset, with every byte before it equal, or an overrun at
      the payload's end when the stream runs past it having matched all the
      rest. No other exception marks a departure. */
  predicate DepartsAt(data: seq<Byte>, base: nat, stream: seq<Byte>, c: Cause)
  {
    match c
    case Mismatch(o, expected, actual) =>
      && base <= o < |data| && o - base < |stream|
      && expected == data[o] && actual == stream[o - base] && expected != actual
      && data[base .. o] == stream[.. o - base]
    case OutOfBounds(o) =>
      && o == |data| && base <= |data| && |data| - base < |stream|
      && data[base ..] == stream[.. |data| - base]
    case _ => false
  }

  /** A departure within a chunk is a departure of any stream it begins. */
  lemma DepartsExtend(data: seq<Byte>, base: nat, chunk: seq<Byte>, rest: seq<Byte>, c: Cause)
    requires DepartsAt(data, base, chunk, c)
    ensures DepartsAt(data, base, chunk + rest, c)
  {
  }

  /** A departure after a chunk that continues the payload is a departure of
      the whole stream, at the same offset. */
  lemma DepartsShift(data: seq<Byte>, base: nat, chunk: seq<Byte>, rest: seq<Byte>, c: Cause)
    requires base + |chunk| <= |data| && data[base .. base + |chunk|] == chunk
    requires DepartsAt(data, base + |chunk|, rest, c)
    ensures DepartsAt(data, base, chunk + rest, c)
  {
  }

  /** A failing chunk departs from the payload where its exception says. */
  lemma ReadDeparts(h: Handler, data: seq<Byte>, chunk: seq<Byte>)
    requires h.channel.Some? && h.counter <= |data|
    requires Dispatch(h, data, Read(chunk)).raised.Some?
    ensures DepartsAt(data, h.counter, chunk, Dispatch(h, data, Read(chunk)).raised.value)
  {
  }

  /** Feeding a stream of chunks is feeding its first chunk, then the rest. */
  lemma ReadsUnfold(h: Handler, data: seq<Byte>, chunks: seq<seq<Byte>>)
    requires |chunks| > 0
    ensures var s := Dispatch(h, data, Read(chunks[0]));
      var rest := Run(s.state, data, Reads(chunks[1..]));
      Run(h, data, Reads(chunks)) ==
        Trace(rest.state, s.writes + rest.writes,
              (if s.raised.Some? then [s.raised.value] else []) + rest.raised,
              (if s.close then 1 else 0) + rest.closes)
  {
    assert Reads(chunks)[1..] == Reads(chunks[1..]);
  }

  /** Reads never rebind a handler: its channel is the one it started with. */
  lemma {:induction false} ReadsKeepChannel(h: Handler, data: seq<Byte>, chunks: seq<seq<Byte>>)
    ensures Run(h, data, Reads(chunks)).state.channel == h.channel
    decreases |chunks|
  {
    if |chunks| == 0 {
      assert Reads(chunks) == [];
    } else {
      ReadsUnfold(h, data, chunks);
      ReadsKeepChannel(Dispatch(h, data, Read(chunks[0])).state, data, chunks[1..]);
    }
  }

  /** One delivered chunk, for a bound handler: it raises nothing exactly
      when the chunk continues the payload, in which case the counter
      advances past it and the accepted side echoes it; otherwise it raises
      a mismatch or an overrun. */
  lemma ReadStep(h: Handler, data: seq<Byte>, c: seq<Byte>)
    requires h.channel.Some?
    ensures var s := Dispatch(h, data, Read(c));
      && (s.raised.None? <==> Continues(data, h.counter, c))
      && (s.raised.None? ==>
            && s.state == h.(counter := h.counter + |c|)
            && s.writes == (if h.channel == Some(Accepting) then [c] else [])
            && !s.close)
      && (s.raised.Some? ==> s.raised.value.Mismatch? || s.raised.value.OutOfBounds?)
  {
  }

  /** The stream property of StreamChecked. */
  ghost predicate CheckedAs(h: Handler, data: seq<Byte>, chunks: seq<seq<Byte>>)
  {
    var r := Run(h, data, Reads(chunks));
    && (r.raised == [] <==> Continues(data, h.counter, Flatten(chunks)))
    && (r.raised != [] ==> r.raised[0].Mismatch? || r.raised[0].OutOfBounds?)
  }

  /** StreamChecked when the first chunk already fails. */
  lemma HeadFails(h: Handler, data: seq<Byte>, chunks: seq<seq<Byte>>)
    requires h.channel.Some? && |chunks| > 0
    requires Dispatch(h, data, Read(chunks[0])).raised.Some?
    ensures CheckedAs(h, data, chunks)
  {
  }

  /** A first chunk that passes: it continues the payload, the counter
      moves past it, and the exceptions raised are those of the rest. */
  lemma PassingHead(h: Handler, data: seq<Byte>, chunks: seq<seq<Byte>>)
    requires h.channel.Some? && |chunks| > 0
    requires Dispatch(h, data, Read(chunks[0])).raised.None?
    ensures var s := Dispatch(h, data, Read(chunks[0]));
      && Continues(data, h.counter, chunks[0])
      && s.state.counter == h.counter + |chunks[0]|
      && Run(h, data, Reads(chunks)).raised == Run(s.state, data, Reads(chunks[1..])).raised
  {
    ReadStep(h, data, chunks[0]);
    ReadsUnfold(h, data, chunks);
  }

  /** The stream step of StreamChecked, on values: after a first chunk that
      continues the payload, the stream raises what its rest raises. */
  lemma CheckedAfterRest(data: seq<Byte>, base: nat, mid: nat, chunks: seq<seq<Byte>>, raised: seq<Cause>, rest: seq<Cause>)
    requires |chunks| > 0 && Continues(data, base, chunks[0]) && mid == base + |chunks[0]|
    requires raised == rest
    requires rest == [] <==> Continues(data, mid, Flatten(chunks[1..]))
    requires rest != [] ==> rest[0].Mismatch? || rest[0].OutOfBounds?
    ensures raised == [] <==> Continues(data, base, Flatten(chunks))
    ensures raised != [] ==> raised[0].Mismatch? || raised[0].OutOfBounds?
  {
  }

  /** StreamChecked when the first chunk passes and the rest is known. */
  lemma HeadPasses(h: Handler, data: seq<Byte>, chunks: seq<seq<Byte>>)
    requires h.channel.Some? && |chunks| > 0
    requires Dispatch(h, data, Read(chunks[0])).raised.None?
    requires CheckedAs(Dispatch(h, data, Read(chunks[0])).state, data, chunks[1..])
    ensures CheckedAs(h, data, chunks)
  {
    var s := Dispatch(h, data, Read(chunks[0]));
    PassingHead(h, data, chunks);
    CheckedAfterRest(data, h.counter, s.state.counter, chunks,
                     Run(h, data, Reads(chunks)).raised, Run(s.state, data, Reads(chunks[1..])).raised);
  }

  /** The stream property of StreamDeparts. */
  ghost predicate DepartsAs(h: Handler, data: seq<Byte>, chunks: seq<seq<Byte>>)
  {
    var r := Run(h, data, Reads(chunks));
    r.raised != [] ==> DepartsAt(data, h.counter, Flatten(chunks), r.raised[0])
  }

  /** StreamDeparts when the first chunk already fails. */
  lemma DepartsFirst(h: Handler, data: seq<Byte>, chunks: seq<seq<Byte>>)
    requires h.channel.Some? && h.counter <= |data| && |chunks| > 0
    requires Dispatch(h, data, Read(chunks[0])).raised.Some?
    ensures DepartsAs(h, data, chunks)
  {
  }

  /** The stream step of StreamDeparts, on values: after a first chunk that
      continues the payload, a departure of the rest is one of the stream. */
  lemma DepartsAfterRest(data: seq<Byte>, base: nat, mid: nat, chunks: seq<seq<Byte>>, raised: seq<Cause>, rest: seq<Cause>)
    requires |chunks| > 0 && base <= |data| && Continues(data, base, chunks[0]) && mid == base + |chunks[0]|
    requires raised == rest
    requires rest != [] ==> DepartsAt(data, mid, Flatten(chunks[1..]), rest[0])
    ensures raised != [] ==> DepartsAt(data, base, Flatten(chunks), raised[0])
  {
  }

  /** StreamDeparts when the first chunk passes and the rest is known. */
  lemma DepartsLater(h: Handler, data: seq<Byte>, chunks: seq<seq<Byte>>)
    requires h.channel.Some? && h.counter <= |data| && |chunks| > 0
    requires Dispatch(h, data, Read(chunks[0])).raised.None?
    requires DepartsAs(Dispatch(h, data, Read(chunks[0])).state, data, chunks[1..])
    ensures DepartsAs(h, data, chunks)
  {
    var s := Dispatch(h, data, Read(chunks[0]));
    PassingHead(h, data, chunks);
    DepartsAfterRest(data, h.counter, s.state.counter, chunks,
                     Run(h, data, Reads(chunks)).raised, Run(s.state, data, Reads(chunks[1..])).raised);
  }

  /** The first exception a bound handler raises over a stream marks where
      the joined chunks first depart from the payload. */
  lemma {:induction false} StreamDeparts(h: Handler, data: seq<Byte>, chunks: seq<seq<Byte>>)
    requires h.channel.Some? && h.counter <= |data|
    ensures var r := Run(h, data, Reads(chunks));
      r.raised != [] ==> DepartsAt(data, h.counter, Flatten(chunks), r.raised[0])
    decreases |chunks|
  {
    if |chunks| == 0 {
      assert Reads(chunks) == [];
    } else {
      var s := Dispatch(h, data, Read(chunks[0]));
      if s.raised.Some? {
        DepartsFirst(h, data, chunks);
      } else {
        StreamDeparts(s.state, data, chunks[1..]);
        DepartsLater(h, data, chunks);
      }
      assert DepartsAs(h, data, chunks);
    }
  }

  /** A bound handler fed a stream of chunks raises nothing exactly when the
      chunks, joined, continue the payload from its counter; otherwise the
      first exception it raises is a mismatch or an overrun, at the point
      where the stream first departs from the payload. */
  lemma {:induction false} StreamChecked(h: Handler, data: seq<Byte>, chunks: seq<seq<Byte>>)
    requires h.channel.Some?
    ensures var r := Run(h, data, Reads(chunks));
      && (r.raised == [] <==> Continues(data, h.counter, Flatten(chunks)))
      && (r.raised != [] ==> r.raised[0].Mismatch? || r.raised[0].OutOfBounds?)
      && (h.counter <= |data| && r.raised != [] ==> DepartsAt(data, h.counter, Flatten(chunks), r.raised[0]))
    decreases |chunks|
  {
    if h.counter <= |data| {
      StreamDeparts(h, data, chunks);
    }
    if |chunks| == 0 {
      assert Reads(chunks) == [];
    } else {
      var s := Dispatch(h, data, Read(chunks[0]));
      if s.raised.Some? {
        HeadFails(h, data, chunks);
      } else {
        StreamChecked(s.state, data, chunks[1..]);
        HeadPasses(h, data, chunks);
      }
      assert CheckedAs(h, data, chunks);
    }
  }

  /** The stream property of StreamVerified. */
  ghost predicate VerifiedAs(h: Handler, data: seq<Byte>, chunks: seq<seq<Byte>>)
  {
    var r := Run(h, data, Reads(chunks));
    && r.raised == []
    && r.state == h.(counter := h.counter + |Flatten(chunks)|)
    && r.writes == (if h.channel == Some(Accepting) then chunks else [])
    && r.closes == 0
  }

  /** The stream step of StreamVerified, on values: a first chunk that
      advances the counter and is echoed on the accepted side, followed by a
      rest that verifies from there. */
  lemma VerifiedAfterRest(h: Handler, chunks: seq<seq<Byte>>, first: seq<seq<Byte>>, whole: Trace, rest: Trace)
    requires |chunks| > 0
    requires first == (if h.channel == Some(Accepting) then [chunks[0]] else [])
    requires whole == Trace(rest.state, first + rest.writes, rest.raised, rest.closes)
    requires && rest.raised == [] && rest.closes == 0
             && rest.state == h.(counter := h.counter + |chunks[0]| + |Flatten(chunks[1..])|)
             && rest.writes == (if h.channel == Some(Accepting) then chunks[1..] else [])
    ensures && whole.raised == [] && whole.closes == 0
            && whole.state == h.(counter := h.counter + |Flatten(chunks)|)
            && whole.writes == (if h.channel == Some(Accepting) then chunks else [])
  {
  }

  /** StreamVerified for a first chunk that continues the payload, given the rest. */
  lemma VerifiedHead(h: Handler, data: seq<Byte>, chunks: seq<seq<Byte>>)
    requires h.channel.Some? && |chunks| > 0
    requires Continues(data, h.counter, chunks[0])
    requires VerifiedAs(Dispatch(h, data, Read(chunks[0])).state, data, chunks[1..])
    ensures VerifiedAs(h, data, chunks)
  {
    var s := Dispatch(h, data, Read(chunks[0]));
    ReadStep(h, data, chunks[0]);
    ReadsUnfold(h, data, chunks);
    VerifiedAfterRest(h, chunks, s.writes, Run(h, data, Reads(chunks)), Run(s.state, data, Reads(chunks[1..])));
  }

  /** A bound handler fed chunks that, joined, continue the payload from its
      counter: its counter advances by the stream's length, its slot and
      channel are untouched, it never closes, and it echoes every chunk
      verbatim on the accepted side and writes nothing on the originating side. */
  lemma {:induction false} StreamVerified(h: Handler, data: seq<Byte>, chunks: seq<seq<Byte>>)
    requires h.channel.Some?
    requires Continues(data, h.counter, Flatten(chunks))
    ensures var r := Run(h, data, Reads(chunks));
      && r.raised == []
      && r.state == h.(counter := h.counter + |Flatten(chunks)|)
      && r.writes == (if h.channel == Some(Accepting) then chunks else [])
      && r.closes == 0
    decreases |chunks|
  {
    if |chunks| == 0 {
      assert Reads(chunks) == [];
    } else {
      ContinuesAppend(data, h.counter, chunks[0], Flatten(chunks[1..]));
      ReadStep(h, data, chunks[0]);
      StreamVerified(Dispatch(h, data, Read(chunks[0])).state, data, chunks[1..]);
      VerifiedHead(h, data, chunks);
      assert VerifiedAs(h, data, chunks);
    }
  }
}

=== FILE: harness.dfy ===
/** The control logic of `testSimpleEcho0` after the payload is written:
    the two wait loops, the teardown sequence and the choice of what to
    throw. Each reads only the two handlers' states. */
module Harness {
  import opened Common
  import opened EchoHandler

  /** What the control thread sees of the server handler `sh` and the client
      handler `ch` at one poll. */
  datatype Snapshot = Snapshot(server: Handler, client: Handler)

  /** The first wait loop watches the client's counter, the second the server's. */
  datatype Waiter = ClientWait | ServerWait

  function Watched(w: Waiter, s: Snapshot): (r: Handler)
  {
    match w
    case ClientWait => s.client
    case ServerWait => s.server
  }

  /** A wait loop stops at a poll when its handler's counter has reached the
      payload length, or when either failure slot is set. */
  predicate Stops(w: Waiter, s: Snapshot, len: nat)
  {
    || Watched(w, s).counter >= len
    || s.server.exception.Some?
    || s.client.exception.Some?
  }

  /** One wait loop (SocketEchoTest.java:142-155 or :157-170) over the
      successive states it observes, starting at poll `from`: the index of
      the poll at which it exits, or `|polls|` if it is still waiting when
      the observations end. */
  method Wait(w: Waiter, polls: seq<Snapshot>, from: nat, len: nat) returns (k: nat)
    requires from <= |polls|
    ensures from <= k <= |polls|
    ensures k < |polls| ==> Stops(w, polls[k], len)
    ensures forall j :: from <= j < k ==> !Stops(w, polls[j], len)
  {
    k := from;
    while k < |polls|
      invariant from <= k <= |polls|
      invariant forall j :: from <= j < k ==> !Stops(w, polls[j], len)
    {
      var s := polls[k];
      if Watched(w, s).counter >= len {
        break;
      }
      if s.server.exception.Some? {
        break;
      }
      if s.client.exception.Some? {
        break;
      }
      k := k + 1;
    }
  }

  /** Over the observed polls, counters never decrease and a filled slot
      stays filled. */
  ghost predicate Monotone(polls: seq<Snapshot>)
  {
    forall i, j :: 0 <= i <= j < |polls| ==>
      && polls[i].server.counter <= polls[j].server.counter
      && polls[i].client.counter <= polls[j].client.counter
      && (polls[i].server.exception.Some? ==> polls[j].server.exception.Some?)
      && (polls[i].client.exception.Some? ==> polls[j].client.exception.Some?)
  }

  /** Both wait loops, client first, the server loop starting where the client
      loop stopped. Teardown is reached exactly when the server loop exits
      within the polls; on monotone polls, both handlers are then done or a
      failure was recorded. */
  method Await(polls: seq<Snapshot>, len: nat) returns (client: nat, server: nat)
    ensures client <= server <= |polls|
    ensures client < |polls| ==> Stops(ClientWait, polls[client], len)
    ensures forall j :: 0 <= j < client ==> !Stops(ClientWait, polls[j], len)
    ensures server < |polls| ==> Stops(ServerWait, polls[server], len)
    ensures forall j :: client <= j < server ==> !Stops(ServerWait, polls[j], len)
    ensures Monotone(polls) && server < |polls| ==>
              Stops(ClientWait, polls[server], len) && Stops(ServerWait, polls[server], len)
  {
    client := Wait(ClientWait, polls, 0, len);
    server := Wait(ServerWait, polls, client, len);
    if Monotone(polls) && server < |polls| {
      assert Stops(ClientWait, polls[client], len);
      assert polls[client].client.counter <= polls[server].client.counter;
    }
  }

  /** The three channels the harness closes: the server handler's (accepted)
      channel, the client handler's channel, and the listening channel. */
  datatype Target = ServerChild | ClientChannel | Listener

  /** The order in which teardown closes the channels (SocketEchoTest.java:172-174). */
  const TeardownOrder: seq<Target> := [ServerChild, ClientChannel, Listener]

  /** The closes issued, in order, and the exception that ended teardown early. */
  datatype TeardownResult = TeardownResult(issued: seq<Target>, thrown: Option<Cause>)

  /** The teardown of SocketEchoTest.java:172-174: each close is issued and
      waited for in turn. `closeFails` says which close futures fail; waiting
      on a failed one rethrows its cause and nothing after it runs. A handler that was never activated
      has a null channel, and dereferencing it throws before its close is
      issued. */
  function Teardown(server: Handler, client: Handler, closeFails: Target -> Option<Cause>): (r: TeardownResult)
    ensures |r.issued| <= 3 && r.issued == TeardownOrder[.. |r.issued|]
    ensures r.thrown.None? <==>
              server.channel.Some? && client.channel.Some? &&
              closeFails(ServerChild).None? && closeFails(ClientChannel).None? && closeFails(Listener).None?
    ensures r.thrown.None? ==> r.issued == TeardownOrder
    ensures |r.issued| >= 1 <==> server.channel.Some?
    ensures |r.issued| >= 2 ==> client.channel.Some?
    ensures server.channel.Some? && closeFails(ServerChild).None? && client.channel.Some? ==> |r.issued| >= 2
    ensures |r.issued| >= 2 && closeFails(ClientChannel).None? ==> r.issued == TeardownOrder
    ensures forall k :: 0 <= k < |r.issued| - 1 ==> closeFails(r.issued[k]).None?
    ensures r.thrown.Some? && |r.issued| > 0 && closeFails(r.issued[|r.issued| - 1]).Some? ==>
              r.thrown == closeFails(r.issued[|r.issued| - 1])
    ensures r.thrown.Some? && (|r.issued| == 0 || closeFails(r.issued[|r.issued| - 1]).None?) ==>
              r.thrown == Some(NullChannel)
  {
    if server.channel.None? then TeardownResult([], Some(NullChannel))
    else if closeFails(ServerChild).Some? then TeardownResult([ServerChild], closeFails(ServerChild))
    else if client.channel.None? then TeardownResult([ServerChild], Some(NullChannel))
    else if closeFails(ClientChannel).Some? then TeardownResult([ServerChild, ClientChannel], closeFails(ClientChannel))
    else TeardownResult(TeardownOrder, closeFails(Listener))
  }

  /** The exception `testSimpleEcho0` ends with (SocketEchoTest.java:176-187):
      a slot holding something other than an IOException first, the server's
      slot before the client's; then an IOException, server first. */
  function Verdict(server: Handler, client: Handler): (r: Option<Cause>)
    ensures r.None? <==> server.exception.None? && client.exception.None?
    ensures r.Some? ==> r == server.exception || r == client.exception
    ensures server.exception.Some? && !IsIOException(server.exception.value) ==> r == server.exception
    ensures (&& client.exception.Some? && !IsIOException(client.exception.value)
             && (server.exception.None? || IsIOException(server.exception.value))) ==> r == client.exception
    ensures (&& server.exception.Some?
             && (client.exception.None? || IsIOException(client.exception.value))) ==> r == server.exception
    ensures r.Some? && IsIOException(r.value) ==>
              (server.exception.None? || IsIOException(server.exception.value)) &&
              (client.exception.None? || IsIOException(client.exception.value))
  {
    if server.exception.Some? && !IsIOException(server.exception.value) then server.exception
    else if client.exception.Some? && !IsIOException(client.exception.value) then client.exception
    else if server.exception.Some? then server.exception
    else client.exception
  }

  /** Precedence of a captured exception: anything but an IOException before
      an IOException, then the server before the client. Lower is thrown first. */
  function Rank(c: Cause, fromServer: bool): (r: nat)
  {
    (if IsIOException(c) then 2 else 0) + (if fromServer then 0 else 1)
  }

  /** The verdict is the captured exception of least rank: an independent,
      order-based reading of the if-chain. */
  lemma VerdictLeastRank(server: Handler, client: Handler)
    ensures Verdict(server, client).Some? ==>
              (Verdict(server, client) == server.exception &&
               Rank(server.exception.value, true) <= (if client.exception.Some? then Rank(client.exception.value, false) else 3))
              ||
              (Verdict(server, client) == client.exception &&
               Rank(client.exception.value, false) < (if server.exception.Some? then Rank(server.exception.value, true) else 4))
  {
  }
}

=== FILE: payload.dfy ===
/** The shared payload and the random slice-length draws of the echo scenario. */
module Payload {

  /** Number of bytes in the static payload `data` (SocketEchoTest.java:43). */
  const DataLength: nat := 1048576

  /** Exclusive bound of one draw `random.nextInt(1024 * 64)`. */
  const DrawBound: nat := 1024 * 64

  /** One result of `random.nextInt(1024 * 64)`: a value in `[0, 65535]`. */
  type Draw = r: int | 0 <= r < DrawBound

  /** Total of a sequence of draws. */
  function Sum(draws: seq<Draw>): (r: nat)
  {
    if |draws| == 0 then 0 else draws[0] + Sum(draws[1..])
  }
}

=== FILE: scenario.dfy ===
/** One run of `testSimpleEcho0` end to end, deterministic once its inputs
    are fixed: the random draws, how the transport chunks the two byte
    streams, the exceptions it reports to each handler, and which close
    futures fail. The control thread's wait loops
    are evaluated on the handlers' final states. */
module Scenario {
  import opened Common
  import opened Payload
  import opened Slicer
  import opened EchoHandler
  import opened Harness

  /** How the run ends. `Writing`: the draws given run out before the write
      loop has covered the payload, so the control thread is still inside
      that loop. `Stalled`: a wait loop never exits, and only the test
      framework's timeout would end the run. */
  datatype Outcome = Passed | Threw(cause: Cause) | Writing | Stalled

  /** What the transport does: the chunks in which the server handler
      receives the client's writes, the chunks in which the client handler
      receives the server's echoes, the exceptions the pipeline then reports
      to each handler's `exceptionCaught` (an IOException from a reset
      connection, say), and which close futures fail. */
  datatype Delivery = Delivery(serverReads: seq<seq<Byte>>, clientReads: seq<seq<Byte>>,
                               serverErrors: seq<Cause>, clientErrors: seq<Cause>,
                               closeFails: Target -> Option<Cause>)

  /** One handler's life: bound to its channel, fed its reads, then told of
      the transport's exceptions. */
  function Side(data: seq<Byte>, role: Role, chunks: seq<seq<Byte>>, causes: seq<Cause>): (r: Trace)
    ensures r.state.channel == Some(role)
  {
    Lifecycle(data, role, chunks, causes);
    ReadsKeepChannel(Handler(Some(role), 0, None), data, chunks);
    FirstFailureWins(Run(Handler(Some(role), 0, None), data, Reads(chunks)).state, data, causes);
    Run(Fresh, data, [Active(role)] + Reads(chunks) + Errors(causes))
  }

  /** The server handler: bound to the accepted channel. */
  function ServerSide(data: seq<Byte>, chunks: seq<seq<Byte>>, causes: seq<Cause>): (r: Trace)
    ensures r.state.channel == Some(Accepting)
  {
    Side(data, Accepting, chunks, causes)
  }

  /** The client handler: bound to the dialling channel. */
  function ClientSide(data: seq<Byte>, chunks: seq<seq<Byte>>, causes: seq<Cause>): (r: Trace)
    ensures r.state.channel == Some(Originating)
  {
    Side(data, Originating, chunks, causes)
  }

  /** No close future fails. */
  predicate ClosesSucceed(d: Delivery)
  {
    d.closeFails(ServerChild).None? && d.closeFails(ClientChannel).None? && d.closeFails(Listener).None?
  }

  /** Everything one run produces. */
  datatype Report = Report(sent: seq<seq<Byte>>, server: Trace, client: Trace, outcome: Outcome)

  /** Write the slices, let the handlers run, wait, tear down, and pick the
      exception to throw (SocketEchoTest.java:131-187). The wait loops,
      the teardown and the verdict are reached only once the write loop has
      exited; teardown runs only once both wait loops have exited; a failed
      close preempts the verdict. */
  function Scenario(data: seq<Byte>, draws: seq<Draw>, d: Delivery): (r: Report)
    ensures r.outcome == Writing <==> Slices(|data|, 0, draws).offset < |data|
    ensures r.outcome == Passed ==>
              && Flatten(r.sent) == data
              && r.server.state.counter == |data| && r.client.state.counter == |data|
              && r.server.state.exception.None? && r.client.state.exception.None?
              && ClosesSucceed(d)
    ensures r.outcome == Stalled ==>
              (r.server.state.counter < |data| || r.client.state.counter < |data|) &&
              r.server.state.exception.None? && r.client.state.exception.None?
    ensures r.outcome.Threw? ==>
              var last := Snapshot(r.server.state, r.client.state);
              Stops(ClientWait, last, |data|) && Stops(ServerWait, last, |data|)
    ensures r.outcome.Threw? && ClosesSucceed(d) ==>
              Some(r.outcome.cause) == Verdict(r.server.state, r.client.state)
    ensures r.outcome.Threw? && !ClosesSucceed(d) ==>
              Some(r.outcome.cause) in {d.closeFails(ServerChild), d.closeFails(ClientChannel), d.closeFails(Listener)}
    ensures r.outcome.Threw? && d.closeFails(ServerChild).Some? ==> Some(r.outcome.cause) == d.closeFails(ServerChild)
    ensures (&& r.outcome.Threw? && d.closeFails(ServerChild).None?
             && d.closeFails(ClientChannel).Some?) ==> Some(r.outcome.cause) == d.closeFails(ClientChannel)
    ensures (&& r.outcome.Threw? && d.closeFails(ServerChild).None? && d.closeFails(ClientChannel).None?
             && d.closeFails(Listener).Some?) ==> Some(r.outcome.cause) == d.closeFails(Listener)
  {
    var sent := Sent(data, draws);
    SentCoversPayload(data, draws);
    var server := ServerSide(data, d.serverReads, d.serverErrors);
    var client := ClientSide(data, d.clientReads, d.clientErrors);
    var last := Snapshot(server.state, client.state);
    var outcome :=
      if Slices(|data|, 0, draws).offset < |data| then Writing
      else if !Stops(ClientWait, last, |data|) || !Stops(ServerWait, last, |data|) then Stalled
      else
        var down := Teardown(server.state, client.state, d.closeFails);
        if down.thrown.Some? then Threw(down.thrown.value)
        else match Verdict(server.state, client.state)
          case None => Passed
          case Some(c) => Threw(c);
    Report(sent, server, client, outcome)
  }

  /** A handler's life in two phases: after activation, its reads run from
      the bound state, and the transport's exceptions from wherever the
      reads left it. */
  lemma Lifecycle(data: seq<Byte>, role: Role, chunks: seq<seq<Byte>>, causes: seq<Cause>)
    ensures var fed := Run(Handler(Some(role), 0, None), data, Reads(chunks));
      var errors := Run(fed.state, data, Errors(causes));
      Run(Fresh, data, [Active(role)] + Reads(chunks) + Errors(causes)) ==
        Trace(errors.state, fed.writes + errors.writes, fed.raised + errors.raised, fed.closes + errors.closes)
  {
    assert [Active(role)] + Reads(chunks) + Errors(causes) == [Active(role)] + (Reads(chunks) + Errors(causes));
    ActiveFirst(Fresh, data, role, Reads(chunks) + Errors(causes));
    RunAppend(Handler(Some(role), 0, None), data, Reads(chunks), Errors(causes));
  }

  /** A handler whose reads continue the payload from 0: its counter ends
      at the stream's length, the accepted side echoes every chunk, and the
      slot and the closes reflect only the transport's exceptions. */
  lemma CleanSide(data: seq<Byte>, role: Role, chunks: seq<seq<Byte>>, causes: seq<Cause>)
    requires Continues(data, 0, Flatten(chunks))
    ensures var r := Side(data, role, chunks, causes);
      && r.state == Handler(Some(role), |Flatten(chunks)|, if |causes| == 0 then None else Some(causes[0]))
      && r.writes == (if role == Accepting then chunks else [])
      && r.raised == causes
      && r.closes == (if |causes| == 0 then 0 else 1)
  {
    var bound := Handler(Some(role), 0, None);
    Lifecycle(data, role, chunks, causes);
    StreamVerified(bound, data, chunks);
    FirstFailureWins(Run(bound, data, Reads(chunks)).state, data, causes);
  }

  /** The round trip: once the write loop has exited, a transport that
      delivers the written bytes to the server in order, in any chunking, and
      the server's echoes to the client in order, in any chunking, leaves both
      counters at the payload length. The server has echoed the stream
      verbatim and the client has written nothing. Each slot holds the first
      exception the transport reported to that handler, if any, and the run
      passes exactly when the transport reported none and no close fails. */
  lemma {:induction false} RoundTrip(data: seq<Byte>, draws: seq<Draw>, d: Delivery)
    requires Slices(|data|, 0, draws).offset == |data|
    requires Flatten(d.serverReads) == Flatten(Sent(data, draws))
    requires Flatten(d.clientReads) == Flatten(ServerSide(data, d.serverReads, d.serverErrors).writes)
    ensures var r := Scenario(data, draws, d);
      && Flatten(r.sent) == data
      && r.server.state.counter == |data| && r.client.state.counter == |data|
      && r.server.state.exception == (if |d.serverErrors| == 0 then None else Some(d.serverErrors[0]))
      && r.client.state.exception == (if |d.clientErrors| == 0 then None else Some(d.clientErrors[0]))
      && r.server.writes == d.serverReads && r.client.writes == []
      && r.server.raised == d.serverErrors && r.client.raised == d.clientErrors
      && (ClosesSucceed(d) && d.serverErrors == [] && d.clientErrors == [] <==> r.outcome == Passed)
  {
    SentCoversPayload(data, draws);
    assert data[0 .. |data|] == data;
    CleanSide(data, Accepting, d.serverReads, d.serverErrors);
    CleanSide(data, Originating, d.clientReads, d.clientErrors);
  }

  /** An exception the transport reports fails a run that would otherwise
      pass. Only the first exception reported to each handler reaches its
      slot. The server's first one is thrown unless it is an IOException and
      the client's first one is not; an IOException is thrown only when the
      other side's first reported exception is an IOException too, or there
      is none. */
  lemma TransportErrorFails(data: seq<Byte>, draws: seq<Draw>, d: Delivery)
    requires Slices(|data|, 0, draws).offset == |data|
    requires Flatten(d.serverReads) == Flatten(Sent(data, draws))
    requires Flatten(d.clientReads) == Flatten(ServerSide(data, d.serverReads, d.serverErrors).writes)
    requires ClosesSucceed(d)
    requires d.serverErrors != [] || d.clientErrors != []
    ensures Scenario(data, draws, d).outcome ==
              Threw(if && d.serverErrors != []
                       && (!IsIOException(d.serverErrors[0]) || d.clientErrors == [] || IsIOException(d.clientErrors[0]))
                    then d.serverErrors[0] else d.clientErrors[0])
  {
    RoundTrip(data, draws, d);
  }

  /** The same round trip with the transport preserving write boundaries
      and reporting no exception: the server receives exactly the slices
      written, the client exactly the server's echoes. */
  lemma ExactRoundTrip(data: seq<Byte>, draws: seq<Draw>, closeFails: Target -> Option<Cause>)
    requires Slices(|data|, 0, draws).offset == |data|
    ensures var d := Delivery(Sent(data, draws), ServerSide(data, Sent(data, draws), []).writes, [], [], closeFails);
      && Scenario(data, draws, d).server.state.counter == |data|
      && Scenario(data, draws, d).client.state.counter == |data|
      && Scenario(data, draws, d).server.state.exception.None?
      && Scenario(data, draws, d).client.state.exception.None?
      && (ClosesSucceed(d) ==> Scenario(data, draws, d).outcome == Passed)
  {
    var d := Delivery(Sent(data, draws), ServerSide(data, Sent(data, draws), []).writes, [], [], closeFails);
    RoundTrip(data, draws, d);
  }

  /** The full-size scenario: a 1,048,576-byte payload and draws whose total
      reaches its length make the write loop exit, and a faithful transport
      lets the run pass. */
  lemma FullPayloadPasses(data: seq<Byte>, draws: seq<Draw>, d: Delivery)
    requires |data| == DataLength
    requires Sum(draws) >= DataLength
    requires Flatten(d.serverReads) == Flatten(Sent(data, draws))
    requires Flatten(d.clientReads) == Flatten(ServerSide(data, d.serverReads, d.serverErrors).writes)
    requires d.serverErrors == [] && d.clientErrors == []
    requires ClosesSucceed(d)
    ensures Scenario(data, draws, d).outcome == Passed
    ensures Scenario(data, draws, d).server.state.counter == DataLength
    ensures Scenario(data, draws, d).client.state.counter == DataLength
  {
    EnoughDrawsExit(|data|, 0, draws);
    RoundTrip(data, draws, d);
  }

  /** Corruption is caught: if the bytes the server receives are not a
      prefix of the payload (a changed byte at some offset, or bytes beyond
      its end), the server's slot holds the first mismatch or overrun: the
      exception names the offset where the received stream first departs
      from the payload, and every byte before it matched. Its
      channel is closed exactly once, and, when no close fails, the run
      throws that exception once the write loop has exited, whatever else
      the transport reports. */
  lemma {:induction false} CorruptionDetected(data: seq<Byte>, draws: seq<Draw>, d: Delivery)
    requires !Continues(data, 0, Flatten(d.serverReads))
    requires ClosesSucceed(d)
    ensures var r := Scenario(data, draws, d);
      && r.server.state.exception.Some?
      && (r.server.state.exception.value.Mismatch? || r.server.state.exception.value.OutOfBounds?)
      && DepartsAt(data, 0, Flatten(d.serverReads), r.server.state.exception.value)
      && r.server.closes == 1
      && r.outcome == (if Slices(|data|, 0, draws).offset < |data| then Writing
                       else Threw(r.server.state.exception.value))
  {
    var r := Scenario(data, draws, d);
    var bound := Handler(Some(Accepting), 0, None);
    Lifecycle(data, Accepting, d.serverReads, d.serverErrors);
    StreamChecked(bound, data, d.serverReads);
    var fed := Run(bound, data, Reads(d.serverReads));
    assert r.server.raised == fed.raised + Run(fed.state, data, Errors(d.serverErrors)).raised;
    var cause := r.server.state.exception.value;
    assert r.server.raised != [] && cause == r.server.raised[0] == fed.raised[0];
    assert !IsIOException(cause);
    var last := Snapshot(r.server.state, r.client.state);
    assert Stops(ClientWait, last, |data|) && Stops(ServerWait, last, |data|);
    assert Teardown(r.server.state, r.client.state, d.closeFails).thrown.None?;
    assert Verdict(r.server.state, r.client.state) == Some(cause);
  }

  /** A short stream stalls the harness: if the server receives only a
      proper prefix of the payload, the client only the echoes of it, and the
      transport reports no exception, no failure is recorded and the first
      wait loop, on the client's counter, never exits: the run stalls there
      once the write loop has exited. */
  lemma {:induction false} ShortStreamStalls(data: seq<Byte>, draws: seq<Draw>, d: Delivery)
    requires |Flatten(d.serverReads)| < |data|
    requires Flatten(d.serverReads) == data[.. |Flatten(d.serverReads)|]
    requires Flatten(d.clientReads) == Flatten(ServerSide(data, d.serverReads, d.serverErrors).writes)
    requires d.serverErrors == [] && d.clientErrors == []
    ensures var r := Scenario(data, draws, d);
      && r.server.state.exception.None? && r.client.state.exception.None?
      && !Stops(ClientWait, Snapshot(r.server.state, r.client.state), |data|)
      && r.outcome == (if Slices(|data|, 0, draws).offset < |data| then Writing else Stalled)
  {
    assert Continues(data, 0, Flatten(d.serverReads));
    CleanSide(data, Accepting, d.serverReads, d.serverErrors);
    CleanSide(data, Originating, d.clientReads, d.clientErrors);
  }
}

=== FILE: slicer.dfy ===
/** The write loop of `testSimpleEcho0`: the payload is cut into consecutive
    slices whose lengths come from random draws, clamped to what is left. The
    draws are an input sequence; a draw of 0 yields an empty slice and no
    progress, so the loop is described for every finite prefix of draws
    rather than claimed to terminate. */
module Slicer {
  import opened Common
  import opened Payload

  /** The slice `data[start .. start + length)` handed to one write. */
  datatype Slice = Slice(start: nat, length: nat) {
    function End(): nat { start + length }
  }

  /** Every slice lies inside a buffer of `n` bytes. */
  predicate Within(s: seq<Slice>, n: nat)
  {
    forall k :: 0 <= k < |s| ==> s[k].start + s[k].length <= n
  }

  /** State of the loop after a run of draws: the slices written so far, the
      loop variable `i`, and how many draws were taken. */
  datatype Slicing = Slicing(slices: seq<Slice>, offset: nat, used: nat)

  /** The slices lie end to end, the first starting at `from`, the last
      ending at `to` (no gap, no overlap). */
  ghost predicate Contiguous(s: seq<Slice>, from: nat, to: nat)
    decreases |s|
  {
    if |s| == 0 then from == to
    else s[0].start == from && Contiguous(s[1..], s[0].End(), to)
  }

  /** Each slice's length is the corresponding draw clamped to the bytes
      remaining at its start, and each starts before `total`. */
  ghost predicate Clamped(s: seq<Slice>, draws: seq<Draw>, total: nat)
  {
    && |s| <= |draws|
    && forall k {:trigger s[k]} :: 0 <= k < |s| ==>
         s[k].start < total && s[k].length == Min(draws[k], total - s[k].start)
  }

  /** The write loop started at offset `from` and run over the given draws.
      While bytes remain and a draw is available it takes the next draw,
      writes a slice of that length clamped to the bytes remaining, and moves
      past it. It stops when the offset reaches `total` or the draws run out. */
  function Slices(total: nat, from: nat, draws: seq<Draw>): (r: Slicing)
    requires from <= total
    ensures from <= r.offset <= total
    ensures r.used == |r.slices| <= |draws|
    ensures r.offset < total ==> r.used == |draws|
    decreases |draws|
  {
    if from == total || |draws| == 0 then Slicing([], from, 0)
    else
      var length := Min(draws[0], total - from);
      var rest := Slices(total, from + length, draws[1..]);
      Slicing([Slice(from, length)] + rest.slices, rest.offset, rest.used + 1)
  }

  /** Slice k has the length of draw k clamped to the bytes remaining at its
      start, and starts while bytes remain. */
  lemma {:induction false} SlicesClamped(total: nat, from: nat, draws: seq<Draw>)
    requires from <= total
    ensures Clamped(Slices(total, from, draws).slices, draws, total)
    decreases |draws|
  {
    if from < total && |draws| > 0 {
      var length := Min(draws[0], total - from);
      var r := Slices(total, from, draws);
      var rest := Slices(total, from + length, draws[1..]);
      SlicesClamped(total, from + length, draws[1..]);
      assert forall k :: 1 <= k < |r.slices| ==> r.slices[k] == rest.slices[k - 1] && draws[k] == draws[1..][k - 1];
    }
  }

  /** The slices lie end to end from where the loop started to where it
      stopped: each one starts at the previous one's end. */
  lemma {:induction false} SlicesContiguous(total: nat, from: nat, draws: seq<Draw>)
    requires from <= total
    ensures Contiguous(Slices(total, from, draws).slices, from, Slices(total, from, draws).offset)
    decreases |draws|
  {
    if from < total && |draws| > 0 {
      var length := Min(draws[0], total - from);
      SlicesContiguous(total, from + length, draws[1..]);
      assert Slices(total, from, draws).slices[1..] == Slices(total, from + length, draws[1..]).slices;
    }
  }

  /** Every slice is at most 65535 bytes long and none runs past the end. */
  lemma {:induction false} SliceBounds(total: nat, from: nat, draws: seq<Draw>)
    requires from <= total
    ensures forall k :: 0 <= k < |Slices(total, from, draws).slices| ==>
              Slices(total, from, draws).slices[k].length < DrawBound &&
              Slices(total, from, draws).slices[k].End() <= total
  {
    var s := Slices(total, from, draws).slices;
    SlicesClamped(total, from, draws);
    forall k | 0 <= k < |s|
      ensures s[k].length < DrawBound && s[k].End() <= total
    {
      assert s[k].length == Min(draws[k], total - s[k].start);
    }
  }

  /** The bytes each slice denotes. */
  function Chunks(data: seq<Byte>, s: seq<Slice>): (r: seq<seq<Byte>>)
    requires Within(s, |data|)
    ensures |r| == |s|
    decreases |s|
  {
    if |s| == 0 then []
    else
      var rest := Chunks(data, s[1..]);
      assert s[0].start + s[0].length <= |data|;
      [data[s[0].start .. s[0].start + s[0].length]] + rest
  }

  /** Chunks of slices appended one at a time. */
  lemma {:induction false} ChunksSnoc(data: seq<Byte>, s: seq<Slice>, x: Slice)
    requires Within(s, |data|)
    requires x.End() <= |data|
    ensures Within(s + [x], |data|)
    ensures Chunks(data, s + [x]) == Chunks(data, s) + [data[x.start .. x.End()]]
    decreases |s|
  {
    if |s| == 0 {
      assert [x][1..] == [];
    } else {
      assert (s + [x])[1..] == s[1..] + [x];
      ChunksSnoc(data, s[1..], x);
    }
  }

  /** Contiguous slices from `from` to `to` carry exactly the payload bytes
      `data[from .. to)`, in order. */
  lemma {:induction false} ChunksCover(data: seq<Byte>, s: seq<Slice>, from: nat, to: nat)
    requires Contiguous(s, from, to)
    requires Within(s, |data|)
    requires to <= |data|
    ensures from <= to
    ensures Flatten(Chunks(data, s)) == data[from .. to]
    decreases |s|
  {
    if |s| == 0 {
    } else {
      ChunksCover(data, s[1..], s[0].End(), to);
      assert Chunks(data, s)[1..] == Chunks(data, s[1..]);
      assert data[from .. to] == data[from .. s[0].End()] + data[s[0].End() .. to];
    }
  }

  /** The slices the harness writes for a payload and a sequence of draws. */
  function Sent(data: seq<Byte>, draws: seq<Draw>): (r: seq<seq<Byte>>)
    ensures |r| == |Slices(|data|, 0, draws).slices|
  {
    var s := Slices(|data|, 0, draws).slices;
    SliceBounds(|data|, 0, draws);
    Chunks(data, s)
  }

  /** When the loop has exited, the slices written cover the payload exactly;
      before that they cover the prefix `data[0 .. i)`. */
  lemma SentCoversPayload(data: seq<Byte>, draws: seq<Draw>)
    ensures Flatten(Sent(data, draws)) == data[.. Slices(|data|, 0, draws).offset]
    ensures Slices(|data|, 0, draws).offset == |data| ==> Flatten(Sent(data, draws)) == data
  {
    var r := Slices(|data|, 0, draws);
    SliceBounds(|data|, 0, draws);
    SlicesContiguous(|data|, 0, draws);
    ChunksCover(data, r.slices, 0, r.offset);
  }

  /** Draws whose total reaches the bytes remaining make the loop exit. */
  lemma {:induction false} EnoughDrawsExit(total: nat, from: nat, draws: seq<Draw>)
    requires from <= total
    requires Sum(draws) >= total - from
    ensures Slices(total, from, draws).offset == total
    decreases |draws|
  {
    if from == total || |draws| == 0 {
    } else {
      var length := Min(draws[0], total - from);
      if length < total - from {
        EnoughDrawsExit(total, from + length, draws[1..]);
      }
    }
  }

  /** All-zero draws leave the loop at its start having consumed every draw:
      no finite prefix of such draws ends the loop when bytes remain. */
  lemma {:induction false} ZeroDrawsStall(total: nat, from: nat, draws: seq<Draw>)
    requires from < total
    requires forall k :: 0 <= k < |draws| ==> draws[k] == 0
    ensures Slices(total, from, draws).offset == from
    ensures Slices(total, from, draws).used == |draws|
    ensures forall k :: 0 <= k < |Slices(total, from, draws).slices| ==>
              Slices(total, from, draws).slices[k] == Slice(from, 0)
    decreases |draws|
  {
    if |draws| > 0 {
      ZeroDrawsStall(total, from, draws[1..]);
      var rest := Slices(total, from, draws[1..]);
      assert Slices(total, from, draws).slices == [Slice(from, 0)] + rest.slices;
    }
  }

  /** One turn of the loop: with bytes remaining and a draw available, the
      loop writes the clamped slice and continues from its end with the
      remaining draws. */
  lemma LoopTurn(data: seq<Byte>, done: seq<Slice>, i: nat, rest: seq<Draw>)
    requires i < |data| && |rest| > 0
    requires Within(done, |data|)
    ensures var next := Slice(i, Min(rest[0], |data| - i));
      && done + Slices(|data|, i, rest).slices == (done + [next]) + Slices(|data|, next.End(), rest[1..]).slices
      && Slices(|data|, i, rest).offset == Slices(|data|, next.End(), rest[1..]).offset
      && Within(done + [next], |data|)
      && Chunks(data, done + [next]) == Chunks(data, done) + [data[i .. next.End()]]
  {
    var next := Slice(i, Min(rest[0], |data| - i));
    SlicesTurn(|data|, i, rest);
    ChunksSnoc(data, done, next);
  }

  /** Unfolds `Slices` once when bytes remain and a draw is available. */
  lemma SlicesTurn(total: nat, i: nat, rest: seq<Draw>)
    requires i < total && |rest| > 0
    ensures var next := Slice(i, Min(rest[0], total - i));
      && Slices(total, i, rest).slices == [next] + Slices(total, next.End(), rest[1..]).slices
      && Slices(total, i, rest).offset == Slices(total, next.End(), rest[1..]).offset
  {
  }

  /** The loop of SocketEchoTest.java:131-140, returning the byte slices it
      writes in order, the final `i` and the number of draws taken. */
  method SendLoop(data: seq<Byte>, draws: seq<Draw>) returns (sent: seq<seq<Byte>>, i: nat, used: nat)
    ensures i <= |data| && used <= |draws|
    ensures i < |data| ==> used == |draws|
    ensures Flatten(sent) == data[.. i]
    ensures |sent| == used
    ensures sent == Sent(data, draws)
  {
    ghost var whole := Slices(|data|, 0, draws);
    ghost var done: seq<Slice> := [];
    ghost var rest := draws;
    sent, i, used := [], 0, 0;
    while i < |data| && used < |draws|
      invariant i <= |data| && used <= |draws|
      invariant rest == draws[used..]
      invariant |done| == used == |sent|
      invariant Flatten(sent) == data[.. i]
      invariant Within(done, |data|)
      invariant sent == Chunks(data, done)
      invariant whole.slices == done + Slices(|data|, i, rest).slices
      decreases |draws| - used
    {
      var length := Min(draws[used], |data| - i);
      LoopTurn(data, done, i, rest);
      FlattenSnoc(sent, data[i .. i + length]);
      assert data[.. i + length] == data[.. i] + data[i .. i + length];
      sent := sent + [data[i .. i + length]];
      done := done + [Slice(i, length)];
      rest := rest[1..];
      i := i + length;
      used := used + 1;
    }
    assert Slices(|data|, i, rest).slices == [];
    assert whole.slices == done;
  }
}
